=== FILE: README.md ===
# DictionaryTableModel, modelled in Dafny

A verified model of the edit and bookkeeping logic of RUPS's
`DictionaryTableModel`. This is the table model that shows a PDF dictionary
in a grid. Each row is one dictionary entry. Column 0 is the key (a PDF name)
and column 1 is the value. Outside plugin mode there is also a third,
always-empty column that hosts a delete control, and one extra trailing
"pending" row. In the pending row the user types a new key and value before
`validateTempRow` commits them.

Under the widget calls, the class is a small sequential state machine. The
model writes it as pure transitions over an immutable state:

- `PdfDict`: the wrapped `PdfDictionary`. It is a key iteration order
  (`order`) plus a map of entries, with no key repeated. `put` keeps the
  position of an existing key. A fresh key goes where a `Placement`
  function puts it. Existing keys never move relative to each other.
- `PdfObjects`: PDF objects. The model keeps only the kind that `setValueAt`
  inspects: name, literal string, array, or other. The parser is an
  uninterpreted pair of functions `string -> Option<Value>`. One stands for
  the overload without an owner component and one for the overload that
  takes an owner (which the table always calls with `null`).
- `TableModel`: the table state (dictionary, cached `keys` list, `tempKey`,
  `tempValue`, `pluginMode`) and every operation of the class. Operations
  return a `Step`, which is the new state plus a status:
  - `Done`.
  - `Rejected(reason)`: a logged warning or error, or the silent
    unparseable-value case.
  - `Thrown`: a Java exception escapes. The state is whatever had changed
    before the throw.
  - `Unsupported`: see "Left out".
- `TableProperties`: the invariants and frame conditions. The central one
  is that the cache equals the dictionary's key order (`Coherent`). The
  other properties: when each operation keeps it, the pending row is the
  grid's last row, rejected edits change nothing, a rename keeps the value,
  and only a successful commit clears the scratch fields.
- `RenameDefect`: the rename defect described under "Findings", and a
  guarded rename under which every operation keeps the cache coherent.
- `Seqs`, `JavaStrings`, `Wrappers`: `ArrayList` insert and remove, the
  `addRow` key scan, `String.trim`, `startsWith("/")` and `replaceAll(",", "")`.

The `/` sigil is PDF name syntax (section 7.3.5 of ISO 32000-1). The `(`…`)`
wrapping applied to edited string values is PDF literal-string syntax
(section 7.3.4.2 of ISO 32000-1).

Points where the code's behaviour is easy to misread:
- After a commit, `tempKey` is reset to the empty string, not to the
  initial `/` (DictionaryTableModel.java:245). `TableProperties.CommitLeavesEmptyPendingKey`
  states this.
- On an existing row, any column other than 0 is a value edit, not only
  column 1.
- `setValueAt` treats row `getRowCount() - 1` as the pending row in every
  mode. In plugin mode that row is the last real entry
  (`TableProperties.PluginModeLastRowWritesScratch`).
- Row counts come from `dictionary.size()`, while the pending-row test in
  `getValueAt` uses `keys.size()`. The two agree whenever the cache is
  coherent. After the rename defect (see "Findings") they can differ, and
  later edits can even bring the sizes back into agreement while the cache
  still disagrees with the dictionary's key order.

## Model

| member | source | states |
|---|---|---|
| TableModel.New | src/main/java/com/itextpdf/rups/view/models/DictionaryTableModel.java:91-97 | the constructor makes the cache equal the dictionary's key order; the pending row starts as `/` and the empty string |
| TableModel.ColumnCount | src/main/java/com/itextpdf/rups/view/models/DictionaryTableModel.java:102-104 | two columns exactly in plugin mode, three otherwise (the delete column); `TableProperties.ShapeQueries` relates it to editability |
| TableModel.RowCount | src/main/java/com/itextpdf/rups/view/models/DictionaryTableModel.java:109-111 | one row per dictionary entry, plus the pending row outside plugin mode; on a coherent table that is the cache length (plus one) |
| TableModel.IsCellEditable | src/main/java/com/itextpdf/rups/view/models/DictionaryTableModel.java:115-117 | a cell is editable exactly when the table is not in plugin mode and the column lies before the delete column, whatever the row |
| TableModel.ColumnName | src/main/java/com/itextpdf/rups/view/models/DictionaryTableModel.java:203-215 | exactly columns 0..2 have a name, and only the delete column's name is empty; `TableProperties.ColumnNames` pins "Key" and "Value" |
| TableProperties.ShapeQueries | src/main/java/com/itextpdf/rups/view/models/DictionaryTableModel.java:102-117 | 2 columns exactly in plugin mode (3 otherwise); editable cells are exactly the columns before the delete column, and none in plugin mode; on a coherent table the row count is the cache length, plus one outside plugin mode |
| TableProperties.ColumnNames | src/main/java/com/itextpdf/rups/view/models/DictionaryTableModel.java:203-215 | exactly columns 0..2 have a name; every displayed column has one; "Key", "Value", and "" for the delete column |
| TableModel.GetValueAt | src/main/java/com/itextpdf/rups/view/models/DictionaryTableModel.java:122-141 | row `|keys|` reads `tempKey`/`tempValue`; a cached row reads its key in column 0 and, in column 1, exactly that key's dictionary value, or null when the dictionary lacks it (also on an incoherent table); columns other than 0 and 1 read null; other rows throw |
| TableProperties.GridShowsDictionary | src/main/java/com/itextpdf/rups/view/models/DictionaryTableModel.java:122-141 | on a coherent table every real row reads a key and its value, never null, and every dictionary entry is read back at the row where the scan finds its key |
| TableProperties.PendingRowIsLastRow | src/main/java/com/itextpdf/rups/view/models/DictionaryTableModel.java:144-158 | outside plugin mode the last grid row shows the scratch fields, and writing it is read back (the key with its `/` prefix) |
| TableProperties.PluginModeRowsAreEntries | src/main/java/com/itextpdf/rups/view/models/DictionaryTableModel.java:109-111 | in plugin mode every row below the row count is a real entry |
| TableProperties.PluginModeLastRowWritesScratch | src/main/java/com/itextpdf/rups/view/models/DictionaryTableModel.java:147-158 | in plugin mode a key written to the last real row goes to `tempKey`; the entry is not renamed and the dictionary and cache are untouched |
| TableModel.WritePending | src/main/java/com/itextpdf/rups/view/models/DictionaryTableModel.java:150-158 | column 0 stores the text with `/` prepended exactly when missing, so `tempKey` starts with `/`; column 1 stores it verbatim; other columns change nothing; the dictionary and cache are never touched |
| TableModel.SetValueAt | src/main/java/com/itextpdf/rups/view/models/DictionaryTableModel.java:146-198 | a rejected edit changes nothing; pending-row writes leave the dictionary and cache alone, store the key with its `/` (column 0) or the value verbatim (column 1) and keep the other scratch field, change nothing for any other column, and throw with nothing changed for non-string input; other rows leave the scratch fields alone; blank or non-string input on another row is rejected |
| TableProperties.RejectedEditChangesNothing | src/main/java/com/itextpdf/rups/view/models/DictionaryTableModel.java:159-164 | blank or non-string input on an existing row yields `FieldIsEmpty` and the unchanged state |
| TableProperties.ExistingRowEditDispatch | src/main/java/com/itextpdf/rups/view/models/DictionaryTableModel.java:165-194 | non-blank input on an existing row renames the key in column 0 and edits the value in every other column |
| TableModel.GetCorrectKey | src/main/java/com/itextpdf/rups/view/models/DictionaryTableModel.java:266-279 | a key resolves exactly when the plain parser reads the `/`-prefixed text as a name, and resolves to that name |
| TableProperties.GetCorrectKeyIgnoresSigil | src/main/java/com/itextpdf/rups/view/models/DictionaryTableModel.java:266-270 | key text with or without its leading `/` resolves to the same name |
| JavaStrings.WithSlash | src/main/java/com/itextpdf/rups/view/models/DictionaryTableModel.java:267-269 | the result starts with `/`; text that already starts with `/` is kept; otherwise one `/` is prepended |
| TableModel.RenameKey | src/main/java/com/itextpdf/rups/view/models/DictionaryTableModel.java:165-176 | an out-of-range row throws with nothing changed; an in-range row whose text does not resolve to a name is rejected with `KeyIsNotName` and nothing changed; on success, on any table, the new key holds the row's old value, the old key is gone when it differs, and every other entry keeps its value |
| TableProperties.RenameCoherence | src/main/java/com/itextpdf/rups/view/models/DictionaryTableModel.java:165-176 | on a coherent table a resolvable rename always completes; the new key carries the old value; the old key is gone when different; every other key keeps its entry; the cache stays coherent exactly when the new key is the old one or was absent, and otherwise ends exactly one longer than the dictionary |
| TableModel.PrepareValueText | src/main/java/com/itextpdf/rups/view/models/DictionaryTableModel.java:179-186 | array values get the typed text without commas; string values get it wrapped in `(` `)`; other kinds get it unchanged |
| TableModel.EditValue | src/main/java/com/itextpdf/rups/view/models/DictionaryTableModel.java:177-193 | on a row whose key has no entry it throws (null dereference) with nothing changed; on a row whose key has an entry, a null parse of the prepared text is rejected with `ValueUnparseable` and nothing changed, even on an incoherent table; on success the row's key maps to the owner parser's reading of the prepared text and all other keys keep their values |
| TableProperties.EditValueKeepsKeys | src/main/java/com/itextpdf/rups/view/models/DictionaryTableModel.java:178-193 | on a coherent table a value edit never throws; it keeps the cache coherent, the key set and the row count; it succeeds exactly when the prepared text parses |
| TableProperties.EditValuePreparesText | src/main/java/com/itextpdf/rups/view/models/DictionaryTableModel.java:181-188 | editing a string value stores the parse of `"(" + text + ")"`; editing an array value stores the parse of the text without commas |
| TableProperties.SetValueAtCoherence | src/main/java/com/itextpdf/rups/view/models/DictionaryTableModel.java:146-198 | on a coherent table `setValueAt` keeps the cache coherent if and only if the edit is not a rename onto another existing key |
| TableModel.RemoveRow | src/main/java/com/itextpdf/rups/view/models/DictionaryTableModel.java:217-222 | succeeds exactly for a cached row index, otherwise throws with nothing changed; on success the cache loses exactly that row (`ArrayList.remove`), the scratch fields and mode are untouched, the row's key leaves the dictionary and every other entry is kept |
| TableProperties.RemoveRowKeepsCache | src/main/java/com/itextpdf/rups/view/models/DictionaryTableModel.java:217-222 | on a coherent table removal keeps the cache coherent; the dictionary shrinks by one and the key is gone from both |
| Seqs.ScanIndex | src/main/java/com/itextpdf/rups/view/models/DictionaryTableModel.java:255-261 | the loop counter stops at the first position of the key, or at size - 1 when the key is absent |
| TableModel.AddRow | src/main/java/com/itextpdf/rups/view/models/DictionaryTableModel.java:253-264 | the dictionary becomes `put(key, value)`; the scratch fields are untouched; the scan over the updated key order decides: when its index fits the cache the key is inserted there (`keys.add(index, key)`), otherwise `add` throws with the cache unchanged |
| TableProperties.AddRowFreshKeepsCache | src/main/java/com/itextpdf/rups/view/models/DictionaryTableModel.java:253-264 | adding an absent key on a coherent table succeeds, inserts it into the cache at the dictionary's chosen position, keeps coherence and grows the size by one |
| TableProperties.AddRowPresentBreaksCache | src/main/java/com/itextpdf/rups/view/models/DictionaryTableModel.java:253-264 | adding a present key overwrites the entry in place (the key order is unchanged) but inserts the key again at its scan position, so the cache repeats it and ends one longer than the dictionary |
| TableModel.ValidateTempRow | src/main/java/com/itextpdf/rups/view/models/DictionaryTableModel.java:224-251 | on any table, blank fields, a key that is not a name, an unparseable value and a key already present are each rejected, in that order of checks, with the matching reason and nothing changed; any failure leaves both scratch fields unchanged; success requires a resolvable key absent from the dictionary, adds it with the parsed value while every other entry keeps its value, grows the size by one and clears both fields |
| TableProperties.ValidateTempRowCoherence | src/main/java/com/itextpdf/rups/view/models/DictionaryTableModel.java:224-251 | on a coherent table the commit never throws and keeps coherence; it succeeds if and only if both fields are non-blank, the key resolves to an absent name and the value parses; a duplicate key is reported if and only if the key is present |
| TableProperties.CommitLeavesEmptyPendingKey | src/main/java/com/itextpdf/rups/view/models/DictionaryTableModel.java:244-246 | after a commit the pending row's key reads "" where a fresh table reads "/" |
| TableProperties.SinglePageDictionary | src/main/java/com/itextpdf/rups/view/models/DictionaryTableModel.java:102-158 | `<< /Type /Page >>` outside plugin mode has 2 rows and 3 columns; its pending key reads "/"; typing "Foo" there stores "/Foo" |
| JavaStrings.TrimEmptyIffBlank | src/main/java/com/itextpdf/rups/view/models/DictionaryTableModel.java:160 | `"".equalsIgnoreCase(s.trim())` holds exactly when every character is at or below U+0020 |
| JavaStrings.RemoveCommas | src/main/java/com/itextpdf/rups/view/models/DictionaryTableModel.java:182 | the result has no comma, keeps every other character that occurs, adds none, and is the input when it had no comma |
| JavaStrings.RemoveCommasAppend | src/main/java/com/itextpdf/rups/view/models/DictionaryTableModel.java:182 | comma removal distributes over concatenation |
| RenameDefect.RenameOntoExistingKey | src/main/java/com/itextpdf/rups/view/models/DictionaryTableModel.java:174-176 | as written, renaming `/A` onto the existing `/B` leaves the cache `[B, B]` over a one-entry dictionary, with `/B` holding `/A`'s value; the guarded edit refuses it |
| RenameDefect.SetValueAtChecked | src/main/java/com/itextpdf/rups/view/models/DictionaryTableModel.java:165-176 | the corrected edit refuses a rename onto another existing key with `KeyAlreadyExists` and otherwise is `setValueAt` |
| RenameDefect.CheckedModelKeepsCache | src/main/java/com/itextpdf/rups/view/models/DictionaryTableModel.java:146-264 | with the guarded rename, every edit, commit and in-range removal keeps the cache equal to the dictionary's key order |
| RenameDefect.CheckedRenameStillRenames | src/main/java/com/itextpdf/rups/view/models/DictionaryTableModel.java:165-176 | the guard does not block legitimate renames, in either mode: on any row other than the one taken for the pending row, onto a fresh or the same key, the rename completes, carries the value over and keeps the row count |

## Findings

| source | as written | input that shows it | evidently intended | confidence | as-written member | corrected member |
|---|---|---|---|---|---|---|
| src/main/java/com/itextpdf/rups/view/models/DictionaryTableModel.java:174-176 | a rename removes the row and then calls `addRow`; `put` overwrites an existing entry of the new name, but `keys.add` still inserts the name again | dictionary `<< /A 1 /B 2 >>`; `setValueAt("B", 0, 0)` | refuse a rename onto another existing key, as `validateTempRow` does (line 239) | medium; not executed | RenameDefect.RenameOntoExistingKey | RenameDefect.SetValueAtChecked |

Afterwards the cache is `[B, B]` over a one-entry dictionary, and `/B`'s
own value is gone. `getRowCount()` is then 2 but `keys.size()` is also 2.
So the row the grid shows as the pending row (row 1) reads the real key
`B` instead of the scratch fields, and the pending entry is no longer
visible. Writes to row 1 still go to the scratch fields (it is
`getRowCount() - 1`), and `validateTempRow` can still commit them. What is
lost is the duplicate row 1 as an entry: it cannot be renamed or have its
value edited, because its writes never reach the dictionary.

## Left out

- Swing notifications (`fireTableDataChanged`, `fireTableRowsInserted`, `fireTableRowsDeleted`): UI events with no effect on the model's state.
- SLF4J logging and `LoggerMessages`: each logged message becomes a `Reason` in the returned status.
- The owner `Component`: the constructor never assigns the `parent` field, so the parser calls at lines 188 and 236 always pass `null` as the owner. The model keeps that overload as a separate uninterpreted function, which may differ from the plain one.
- The unused `RandomAccessSourceFactory` field and `serialVersionUID`: no behaviour.
- `PdfSyntaxParser.parseString` internals: the parser is a function parameter.
- `PdfDictionary` internals: the real ordering policy becomes the `Placement` parameter. The indirect-reference flag of `get(key, false)` is dropped, so entries are read as stored.
- `toString` rendering of PDF objects: the grid's display text is not modelled.
- Unpaired UTF-16 surrogates: Dafny's `char` is a Unicode scalar value, so a Java string holding a lone surrogate has no model. `trim`, `startsWith("/")` and `replaceAll(",", "")` treat such a code unit like any other non-space, non-comma character.
- Java `int` overflow of `getRowCount()` at `Integer.MAX_VALUE` entries: sizes are unbounded integers.
- TableModel.WritePending: non-string input on the pending row is a throw with the state unchanged. In the source, a non-null non-string fails the cast with nothing stored. `(String) null` succeeds, so column 1 stores `null` and column 0 stores `null` before `startsWith` throws. That null-storing path is not modelled.
- TableModel.RenameKey: when the row's key has no dictionary entry, the source calls `put` with a Java `null`. The model stops with status `Unsupported` and the state unchanged. This case only arises after the cache has already drifted from the dictionary (see Findings).
- TableModel.SetValueAt: inherits the two gaps above.

=== FILE: findings.dfy ===
/** The rename defect of `setValueAt`, and the guarded rename that fixes it.

    As written, renaming a row onto a different key the dictionary already
    holds overwrites that key's entry (`put` replaces it in place) yet inserts
    the key into the cache a second time, so the cache holds one row more
    than the dictionary and the row the grid shows as the pending row reads
    a real key, while writes to that row still go to the scratch fields. The evidently
    intended behaviour is the one `validateTempRow` already has: refuse a key
    that exists. */
module RenameDefect {
  import opened Wrappers
  import opened Seqs
  import opened JavaStrings
  import opened PdfObjects
  import opened PdfDict
  import opened TableModel
  import opened TableProperties

  /** `setValueAt` with the rename guarded: a rename onto another existing
      key is refused with `KeyAlreadyExists`; every other edit behaves as
      written. */
  function SetValueAtChecked(t: Table, env: Env, input: Option<string>, row: int, col: int): (r: Step)
    ensures r.status.Rejected? ==> r.table == t
    ensures ClobbersKey(t, env, input, row, col) ==> r.status == Rejected(KeyAlreadyExists)
    ensures !ClobbersKey(t, env, input, row, col) ==> r == SetValueAt(t, env, input, row, col)
  {
    if ClobbersKey(t, env, input, row, col) then Step(t, Rejected(KeyAlreadyExists))
    else SetValueAt(t, env, input, row, col)
  }

  /** With the guarded rename, every operation of the model keeps the cache
      equal to the dictionary's key order. */
  lemma CheckedModelKeepsCache(t: Table, env: Env, input: Option<string>, row: int, col: int)
    requires Coherent(t)
    ensures Coherent(SetValueAtChecked(t, env, input, row, col).table)
    ensures Coherent(ValidateTempRow(t, env).table)
    ensures 0 <= row < |t.keys| ==> Coherent(RemoveRow(t, row).table)
  {
    SetValueAtCoherence(t, env, input, row, col);
    ValidateTempRowCoherence(t, env);
    if 0 <= row < |t.keys| {
      RemoveRowKeepsCache(t, row);
    }
  }

  /** The guarded rename still renames: onto a fresh key (or the same key)
      it completes, carries the value over and keeps the row count. */
  lemma CheckedRenameStillRenames(t: Table, env: Env, s: string, row: int)
    requires Coherent(t)
    requires 0 <= row < |t.keys| && row != RowCount(t) - 1 && !IsBlank(s)
    requires GetCorrectKey(env.parser, s).Some?
    requires GetCorrectKey(env.parser, s).value == t.keys[row] || !ContainsKey(t.dict, GetCorrectKey(env.parser, s).value)
    ensures var r := SetValueAtChecked(t, env, Some(s), row, 0);
            && r.status == Done
            && Get(r.table.dict, GetCorrectKey(env.parser, s).value) == Some(t.dict.entries[t.keys[row]])
            && RowCount(r.table) == RowCount(t)
  {
    assert !ClobbersKey(t, env, Some(s), row, 0);
    ExistingRowEditDispatch(t, env, s, row, 0);
    RenameCoherence(t, env, s, row);
  }

  function ParsesB(s: string): Option<Value> {
    if s == "/B" then Some(NameObject("B")) else None
  }

  /** A table listing the names `A` and `B`, in that order, with `A` holding `1`. */
  predicate ListsAThenB(t: Table) {
    && Coherent(t)
    && !t.pluginMode
    && t.keys == ["A", "B"]
    && t.dict.entries["A"] == OtherObject("1")
  }

  /** The table built over the dictionary `<< /A 1 /B 2 >>` is such a table. */
  lemma TwoEntryTableExists()
    ensures var d := PdfDictionary(["A", "B"], map["A" := OtherObject("1"), "B" := OtherObject("2")]);
            WellFormed(d) && ListsAThenB(New(d, false))
  {
    var d := PdfDictionary(["A", "B"], map["A" := OtherObject("1"), "B" := OtherObject("2")]);
    assert WellFormed(d);
  }

  /** Renaming row 0 (`/A`) to `B` as written: `/B` now holds `/A`'s old
      value, `/B`'s own value is lost, the cache lists `B` twice against a
      one-entry dictionary, and the row the grid takes for the pending row
      reads a real key instead. The guarded edit refuses and changes nothing. */
  lemma RenameOntoExistingKey(t: Table, place: Placement)
    requires ListsAThenB(t)
    ensures var env := Env(Parser(ParsesB, ParsesB), place);
            var r := SetValueAt(t, env, Some("B"), 0, 0);
            && r.status == Done
            && r.table.keys == ["B", "B"]
            && r.table.dict.order == ["B"]
            && Get(r.table.dict, "B") == Some(OtherObject("1"))
            && GetValueAt(r.table, RowCount(r.table) - 1, 0) == KeyObject("B")
            && SetValueAtChecked(t, env, Some("B"), 0, 0) == Step(t, Rejected(KeyAlreadyExists))
  {
    RenameOntoExistingKeyDispatch(t, place);
    DropFirstOfTwo(t);
    RenameOntoExistingKeyResult(DropRow(t, 0), place);
  }

  /** The text `B` is not blank and resolves to the name `B`. */
  lemma TextBIsName()
    ensures !IsBlank("B") && Trim("B") != ""
    ensures GetCorrectKey(Parser(ParsesB, ParsesB), "B") == Some("B")
  {
    assert "B"[0] > ' ';
    TrimEmptyIffBlank("B");
    assert !StartsWithSlash("B") && WithSlash("B") == "/B";
  }

  /** The edit reaches `addRow` with `/A`'s value after row 0 is removed. */
  lemma RenameOntoExistingKeyDispatch(t: Table, place: Placement)
    requires ListsAThenB(t)
    ensures var env := Env(Parser(ParsesB, ParsesB), place);
            && ClobbersKey(t, env, Some("B"), 0, 0)
            && SetValueAt(t, env, Some("B"), 0, 0) == AddRow(DropRow(t, 0), "B", OtherObject("1"), place)
            && SetValueAtChecked(t, env, Some("B"), 0, 0) == Step(t, Rejected(KeyAlreadyExists))
  {
    var env := Env(Parser(ParsesB, ParsesB), place);
    TextBIsName();
    assert RowCount(t) == 3;
    ExistingRowEditDispatch(t, env, "B", 0, 0);
    assert GetCorrectKey(env.parser, "B") == Some("B");
    RenameBOfA(t, place);
  }

  /** Renaming row 0 to `B` removes the row and re-adds `B` with `/A`'s value. */
  lemma RenameBOfA(t: Table, place: Placement)
    requires ListsAThenB(t)
    ensures RenameKey(t, Env(Parser(ParsesB, ParsesB), place), "B", 0) == AddRow(DropRow(t, 0), "B", OtherObject("1"), place)
  {
    TextBIsName();
    assert Get(t.dict, "A") == Some(OtherObject("1"));
  }

  /** Removing row 0 leaves `B` alone in both the cache and the dictionary. */
  lemma DropFirstOfTwo(t: Table)
    requires ListsAThenB(t)
    ensures DropRow(t, 0).keys == ["B"] && DropRow(t, 0).dict.order == ["B"]
  {
    RemoveRowKeepsCache(t, 0);
    assert DropRow(t, 0).keys == RemoveAt(["A", "B"], 0);
  }

  /** Re-adding `B` to a table that lists only `B` overwrites `B` and duplicates it in the cache. */
  lemma RenameOntoExistingKeyResult(dropped: Table, place: Placement)
    requires dropped.keys == ["B"] && dropped.dict.order == ["B"]
    ensures var r := AddRow(dropped, "B", OtherObject("1"), place);
            && r.status == Done
            && r.table.keys == ["B", "B"]
            && r.table.dict.order == ["B"]
            && Get(r.table.dict, "B") == Some(OtherObject("1"))
            && GetValueAt(r.table, RowCount(r.table) - 1, 0) == KeyObject("B")
  {
    assert ContainsKey(dropped.dict, "B");
    assert ScanIndex(["B"], "B") == 0;
    assert InsertAt(["B"], 0, "B") == ["B", "B"];
  }
}

=== FILE: java_strings.dfy ===
/** The handful of `java.lang.String` operations the table model relies on,
    over strings as sequences of Unicode scalar values (Dafny's `char`). */
module JavaStrings {

  /** Every character is a Java "space", i.e. a code unit at or below U+0020. */
  predicate IsBlank(s: string) {
    forall i :: 0 <= i < |s| ==> s[i] <= ' '
  }

  /** Leading part of `String.trim`: drops code units at or below U+0020 from the front. */
  function TrimStart(s: string): (r: string)
    ensures |r| <= |s| && r == s[|s| - |r|..]
    ensures r == [] || r[0] > ' '
    ensures forall i :: 0 <= i < |s| - |r| ==> s[i] <= ' '
  {
    if |s| > 0 && s[0] <= ' ' then TrimStart(s[1..]) else s
  }

  /** Trailing part of `String.trim`: drops code units at or below U+0020 from the back. */
  function TrimEnd(s: string): (r: string)
    ensures |r| <= |s| && r == s[..|r|]
    ensures r == [] || r[|r| - 1] > ' '
    ensures forall i :: |r| <= i < |s| ==> s[i] <= ' '
  {
    if |s| > 0 && s[|s| - 1] <= ' ' then TrimEnd(s[..|s| - 1]) else s
  }

  /** `String.trim`. */
  function Trim(s: string): string {
    TrimEnd(TrimStart(s))
  }

  /** The source's emptiness test `"".equalsIgnoreCase(s.trim())` holds
      exactly for the strings made of spaces only. */
  lemma TrimEmptyIffBlank(s: string)
    ensures Trim(s) == "" <==> IsBlank(s)
  {
    var front := TrimStart(s);
    if !IsBlank(s) {
      var i :| 0 <= i < |s| && s[i] > ' ';
      assert |s| - |front| <= i;
      assert front[i - (|s| - |front|)] == s[i];
    }
  }

  /** `s.startsWith("/")`: the text already carries the PDF name sigil. */
  predicate StartsWithSlash(s: string) {
    |s| > 0 && s[0] == '/'
  }

  /** Prefixes the PDF name sigil `/` (section 7.3.5 of ISO 32000-1) unless it is already there. */
  function WithSlash(s: string): (r: string)
    ensures StartsWithSlash(r)
    ensures StartsWithSlash(s) ==> r == s
    ensures !StartsWithSlash(s) ==> r[1..] == s
  {
    if StartsWithSlash(s) then s else "/" + s
  }

  /** Prefixing the sigil a second time changes nothing. */
  lemma WithSlashIdempotent(s: string)
    ensures WithSlash(WithSlash(s)) == WithSlash(s)
  {
  }

  /** `s.replaceAll(",", "")`: every comma removed, all other characters kept in order. */
  function RemoveCommas(s: string): (r: string)
    ensures ',' !in r
    ensures |r| <= |s|
    ensures forall c :: c in s && c != ',' ==> c in r
    ensures forall c :: c in r ==> c in s
    ensures ',' !in s ==> r == s
  {
    if s == [] then []
    else
      var rest := RemoveCommas(s[1..]);
      assert forall c :: c in s ==> c == s[0] || c in s[1..];
      if s[0] == ',' then rest else [s[0]] + rest
  }

  /** Removing commas distributes over concatenation, so the result is the
      input with exactly its commas deleted. */
  lemma {:induction false} RemoveCommasAppend(a: string, b: string)
    ensures RemoveCommas(a + b) == RemoveCommas(a) + RemoveCommas(b)
  {
    if a != [] {
      assert (a + b)[1..] == a[1..] + b;
      RemoveCommasAppend(a[1..], b);
    } else {
      assert a + b == b;
    }
  }
}

=== FILE: pdf_dict.dfy ===
/** The PDF dictionary the table wraps: a map from names to objects that
    iterates its keys in an order of its own choosing. */
module PdfDict {
  import opened Wrappers
  import opened Seqs
  import opened PdfObjects

  /** `order` is the dictionary's key iteration order, `entries` its contents. */
  datatype PdfDictionary = PdfDictionary(order: seq<Name>, entries: map<Name, Value>)

  /** Every key is iterated exactly once and every iterated key has an entry. */
  predicate WellFormed(d: PdfDictionary) {
    && Distinct(d.order)
    && (forall k :: k in d.entries ==> k in d.order)
    && (forall k :: k in d.order ==> k in d.entries)
  }

  type Dict = d: PdfDictionary | WellFormed(d) witness PdfDictionary([], map[])

  /** The dictionary's policy for where a fresh key goes in the iteration
      order, given the current order and the key. The real policy belongs to
      the library and is not part of this model; any answer past the end
      means "append". */
  type Placement = (seq<Name>, Name) -> nat

  /** The iteration position a fresh key `k` receives. */
  function InsertionPoint(order: seq<Name>, k: Name, place: Placement): (p: nat)
    ensures p <= |order|
  {
    if place(order, k) < |order| then place(order, k) else |order|
  }

  /** The number of entries agrees with the length of the iteration order. */
  lemma SizeMatchesOrder(d: Dict)
    ensures |d.entries| == |d.order|
  {
    assert d.entries.Keys == set k | k in d.order;
    DistinctSetSize(d.order);
  }

  /** `size()`: the number of entries. */
  function Size(d: Dict): (n: nat)
    ensures n == |d.order|
  {
    SizeMatchesOrder(d);
    |d.entries|
  }

  /** `get(key, false)`: the entry under `k`, or `null`. */
  function Get(d: Dict, k: Name): (r: Option<Value>)
    ensures r.Some? <==> k in d.order
  {
    if k in d.entries then Some(d.entries[k]) else None
  }

  /** `containsKey(k)`. */
  predicate ContainsKey(d: Dict, k: Name) {
    k in d.entries
  }

  /** `put(k, v)`: an existing key keeps its place and gets the new value;
      a fresh key is inserted at the position the placement policy chooses,
      and no existing key moves relative to another. */
  function Put(d: Dict, k: Name, v: Value, place: Placement): (r: Dict)
    ensures Get(r, k) == Some(v)
    ensures forall k' :: k' != k ==> Get(r, k') == Get(d, k')
    ensures k in d.entries ==> r.order == d.order && Size(r) == Size(d)
    ensures k !in d.entries ==>
              && r.order == InsertAt(d.order, InsertionPoint(d.order, k, place), k)
              && Size(r) == Size(d) + 1
  {
    if k in d.entries then
      var r := PdfDictionary(d.order, d.entries[k := v]);
      assert WellFormed(r);
      r
    else
      var p := InsertionPoint(d.order, k, place);
      InsertFreshKeepsDistinct(d.order, p, k);
      var r := PdfDictionary(InsertAt(d.order, p, k), d.entries[k := v]);
      assert WellFormed(r);
      r
  }

  /** `remove(k)`: the entry under `k` goes and the other keys keep their order;
      removing an absent key changes nothing. */
  function Remove(d: Dict, k: Name): (r: Dict)
    ensures Get(r, k) == None
    ensures forall k' :: k' != k ==> Get(r, k') == Get(d, k')
    ensures k in d.entries ==> r.order == RemoveAt(d.order, ScanIndex(d.order, k)) && Size(r) == Size(d) - 1
    ensures k !in d.entries ==> r == d
  {
    if k in d.entries then
      var i := ScanIndex(d.order, k);
      RemoveKeepsDistinct(d.order, i);
      var r := PdfDictionary(RemoveAt(d.order, i), d.entries - {k});
      assert WellFormed(r);
      r
    else
      d
  }
}

=== FILE: pdf_objects.dfy ===
/** The PDF objects the table shows, and the string parser it delegates to. */
module PdfObjects {
  import opened Wrappers

  /** The text of a PDF name object (section 7.3.5 of ISO 32000-1); names are compared by value. */
  type Name = string

  /** A PDF object, reduced to the discriminant the table model inspects:
      name, literal string (section 7.3.4.2 of ISO 32000-1), array, or any other kind. */
  datatype Value =
    | NameObject(name: Name)
    | StringObject(text: string)
    | ArrayObject(items: seq<Value>)
    | OtherObject(repr: string)

  /** The external syntax parser, left uninterpreted. `plain` is the overload
      without an owner component (used to validate keys, never prompts);
      `withOwner` is the overload that takes an owner component (used for
      values). The table passes its `parent` field there, which the
      constructor never assigns, so that argument is always `null`; the
      overload is still kept apart because it need not agree with `plain`.
      `None` is the parser's `null`: the text did not parse. */
  datatype Parser = Parser(plain: string -> Option<Value>, withOwner: string -> Option<Value>)
}

=== FILE: seqs.dfy ===
/** Sequence helpers shared by the dictionary and the table's key cache:
    the `ArrayList` operations `add(index, x)` and `remove(index)`, and the
    front-to-back key scan that `addRow` performs. */
module Seqs {

  /** No element occurs twice. */
  predicate Distinct<T(==)>(s: seq<T>) {
    forall i, j :: 0 <= i < j < |s| ==> s[i] != s[j]
  }

  /** Where a front-to-back scan that stops at the first `x` leaves its
      counter: the first position of `x`, or `|s| - 1` when `x` never occurs
      (so `-1` on the empty sequence). This is the value the counter of the
      `addRow` loop holds after the loop. */
  function ScanIndex<T(==)>(s: seq<T>, x: T): (r: int)
    ensures x in s ==> 0 <= r < |s| && s[r] == x && x !in s[..r]
    ensures x !in s ==> r == |s| - 1
  {
    if |s| == 0 then -1
    else if s[0] == x then 0
    else
      var r' := ScanIndex(s[1..], x);
      assert x in s ==> x in s[1..] && s[..r' + 1] == [s[0]] + s[1..][..r'];
      1 + r'
  }

  /** In a sequence without repetitions the scan finds every element at its own position. */
  lemma ScanIndexOfDistinct<T>(s: seq<T>, i: int)
    requires Distinct(s)
    requires 0 <= i < |s|
    ensures ScanIndex(s, s[i]) == i
  {
  }

  /** `ArrayList.add(i, x)`: `x` lands at position `i`, later elements move up by one. */
  function InsertAt<T>(s: seq<T>, i: int, x: T): (r: seq<T>)
    requires 0 <= i <= |s|
    ensures |r| == |s| + 1
    ensures r[i] == x && r[..i] == s[..i] && r[i + 1..] == s[i..]
    ensures forall y :: y in r ==> y == x || y in s
    ensures forall y :: y in s ==> y in r
  {
    assert s == s[..i] + s[i..];
    s[..i] + [x] + s[i..]
  }

  /** `ArrayList.remove(i)`: the element at `i` goes, later elements move down by one. */
  function RemoveAt<T>(s: seq<T>, i: int): (r: seq<T>)
    requires 0 <= i < |s|
    ensures |r| == |s| - 1
    ensures r[..i] == s[..i] && r[i..] == s[i + 1..]
    ensures forall y :: y in r ==> y in s
    ensures forall y :: y in s && y != s[i] ==> y in r
  {
    assert s == s[..i] + [s[i]] + s[i + 1..];
    s[..i] + s[i + 1..]
  }

  /** Inserting a new element keeps a sequence free of repetitions, and the
      scan then finds the new element exactly where it was inserted. */
  lemma InsertFreshKeepsDistinct<T>(s: seq<T>, i: int, x: T)
    requires Distinct(s) && x !in s
    requires 0 <= i <= |s|
    ensures Distinct(InsertAt(s, i, x))
    ensures ScanIndex(InsertAt(s, i, x), x) == i
  {
    var r := InsertAt(s, i, x);
    forall a, b | 0 <= a < b < |r|
      ensures r[a] != r[b]
    {
      var sa := if a < i then a else a - 1;
      var sb := if b < i then b else b - 1;
      if a == i {
        assert r[b] == s[sb];
      } else if b == i {
        assert r[a] == s[sa];
      } else {
        assert r[a] == s[sa] && r[b] == s[sb] && sa < sb;
      }
    }
    ScanIndexOfDistinct(r, i);
  }

  /** Removing a position keeps a sequence free of repetitions and drops its element entirely. */
  lemma RemoveKeepsDistinct<T>(s: seq<T>, i: int)
    requires Distinct(s)
    requires 0 <= i < |s|
    ensures Distinct(RemoveAt(s, i))
    ensures s[i] !in RemoveAt(s, i)
  {
    var r := RemoveAt(s, i);
    forall a, b | 0 <= a < b < |r|
      ensures r[a] != r[b]
    {
      var sa := if a < i then a else a + 1;
      var sb := if b < i then b else b + 1;
      assert r[a] == s[sa] && r[b] == s[sb] && sa < sb;
    }
  }

  /** Inserting an element right before an equal one repeats it. */
  lemma DuplicateInsertNotDistinct<T>(s: seq<T>, i: int)
    requires 0 <= i < |s|
    ensures !Distinct(InsertAt(s, i, s[i]))
  {
    var r := InsertAt(s, i, s[i]);
    assert r[i + 1..][0] == s[i..][0];
  }

  /** A sequence without repetitions has as many distinct elements as positions. */
  lemma {:induction false} DistinctSetSize<T>(s: seq<T>)
    requires Distinct(s)
    ensures |set x | x in s| == |s|
  {
    if |s| > 0 {
      var tail := s[1..];
      assert Distinct(tail) by {
        forall a, b | 0 <= a < b < |tail|
          ensures tail[a] != tail[b]
        {
          assert tail[a] == s[a + 1] && tail[b] == s[b + 1];
        }
      }
      DistinctSetSize(tail);
      assert s[0] !in tail by {
        forall a | 0 <= a < |tail|
          ensures tail[a] != s[0]
        {
          assert tail[a] == s[a + 1];
        }
      }
      assert (set x | x in s) == {s[0]} + (set x | x in tail) by {
        assert s == [s[0]] + tail;
      }
    }
  }
}

=== FILE: table_model.dfy ===
/** `DictionaryTableModel`: the grid view-model over a PDF dictionary, as
    pure state transitions. Each row is one dictionary entry, in the order of
    the cached key list; outside plugin mode one extra trailing row holds a
    pending entry that has not been committed yet. */
module TableModel {
  import opened Wrappers
  import opened Seqs
  import opened JavaStrings
  import opened PdfObjects
  import opened PdfDict

  /** The model's fields: the wrapped dictionary, the cached key list giving
      rows their indices, the pending row's key and value text, and the mode. */
  datatype Table = Table(
    dict: Dict,
    keys: seq<Name>,
    tempKey: string,
    tempValue: string,
    pluginMode: bool)

  /** The collaborators the model calls into: the parser, and the
      dictionary's placement policy for fresh keys. */
  datatype Env = Env(parser: Parser, place: Placement)

  /** Why an edit was refused (the logged warnings and errors, plus the silent unparseable-value case). */
  datatype Reason = FieldIsEmpty | KeyIsNotName | KeyAlreadyExists | ValueUnparseable

  /** How an operation ended. `Thrown` is a Java exception escaping the
      operation (index out of range, null dereference, failed cast); the state
      is then whatever had been changed before the throw. `Unsupported` marks
      the one path the model does not follow: re-inserting a Java `null`. */
  datatype Status = Done | Rejected(reason: Reason) | Thrown | Unsupported

  datatype Step = Step(table: Table, status: Status)

  /** What `getValueAt` hands to the grid: the pending row's text, a key, a
      value, `null`, or an index-out-of-range exception. */
  datatype Cell = Text(text: string) | KeyObject(key: Name) | ValueObject(value: Value) | Null | OutOfBounds

  /** The key cache lists exactly the dictionary's keys, in its iteration order. */
  predicate Coherent(t: Table) {
    t.keys == t.dict.order
  }

  /** The constructor: the cache copies the dictionary's key order and the
      pending row starts as the bare sigil and an empty value. */
  function New(dict: Dict, pluginMode: bool): (t: Table)
    ensures Coherent(t)
    ensures t.dict == dict && t.pluginMode == pluginMode
    ensures t.tempKey == "/" && t.tempValue == ""
  {
    Table(dict, dict.order, "/", "", pluginMode)
  }

  // ---------------------------------------------------------------- shape

  /** `getColumnCount`: key and value, plus the delete-control column outside plugin mode. */
  function ColumnCount(t: Table): (n: int)
    ensures n == 2 <==> t.pluginMode
    ensures 2 <= n <= 3
  {
    if t.pluginMode then 2 else 3
  }

  /** `getRowCount`: one row per dictionary entry, plus the pending row
      outside plugin mode. */
  function RowCount(t: Table): (n: int)
    ensures n == |t.dict.entries| + (if t.pluginMode then 0 else 1)
    ensures Coherent(t) ==> n == |t.keys| + (if t.pluginMode then 0 else 1)
  {
    if t.pluginMode then Size(t.dict) else Size(t.dict) + 1
  }

  /** `isCellEditable`: every column before the delete-control column, and
      nothing in plugin mode; the row plays no part. */
  function IsCellEditable(t: Table, row: int, col: int): (b: bool)
    ensures b <==> !t.pluginMode && col < ColumnCount(t) - 1
  {
    if t.pluginMode then false else col < 2
  }

  /** `getColumnName`: a name for exactly the three columns the grid can show. */
  function ColumnName(col: int): (r: Option<string>)
    ensures r.Some? <==> 0 <= col < 3
    ensures r.Some? ==> (r.value == "" <==> col == 2)
  {
    if col == 0 then Some("Key")
    else if col == 1 then Some("Value")
    else if col == 2 then Some("")
    else None
  }

  // ----------------------------------------------------------------- read

  /** `getValueAt`: the pending row (index `|keys|`) shows the scratch text in
      columns 0 and 1; other rows show the cached key and its dictionary
      value; every other column is `null`. */
  function GetValueAt(t: Table, row: int, col: int): (c: Cell)
    ensures row == |t.keys| && col == 0 ==> c == Text(t.tempKey)
    ensures row == |t.keys| && col == 1 ==> c == Text(t.tempValue)
    ensures col != 0 && col != 1 ==> c == Null
    ensures 0 <= row < |t.keys| && col == 0 ==> c == KeyObject(t.keys[row])
    ensures 0 <= row < |t.keys| && col == 1 ==>
              c == (if t.keys[row] in t.dict.entries then ValueObject(t.dict.entries[t.keys[row]]) else Null)
    ensures !(0 <= row <= |t.keys|) && (col == 0 || col == 1) ==> c == OutOfBounds
  {
    if row == |t.keys| && col == 0 then Text(t.tempKey)
    else if row == |t.keys| && col == 1 then Text(t.tempValue)
    else if col == 0 || col == 1 then
      if !(0 <= row < |t.keys|) then OutOfBounds
      else if col == 0 then KeyObject(t.keys[row])
      else match Get(t.dict, t.keys[row])
        case Some(v) => ValueObject(v)
        case None => Null
    else Null
  }

  // ------------------------------------------------------- row bookkeeping

  /** `getCorrectKey`: prefix the sigil when missing and accept the text only
      if the plain parser turns it into a name. */
  function GetCorrectKey(parser: Parser, text: string): (r: Option<Name>)
    ensures r.Some? ==> parser.plain(WithSlash(text)) == Some(NameObject(r.value))
    ensures r.None? <==> !(parser.plain(WithSlash(text)).Some? && parser.plain(WithSlash(text)).value.NameObject?)
  {
    match parser.plain(WithSlash(text))
    case Some(NameObject(n)) => Some(n)
    case _ => None
  }

  /** `addRow`: put the entry, then scan the dictionary's new key order for
      the key and insert it into the cache at the index the scan stopped at.
      A scan position the cache cannot take makes `ArrayList.add` throw after
      the dictionary has already changed. */
  function AddRow(t: Table, key: Name, value: Value, place: Placement): (r: Step)
    ensures r.table.dict == Put(t.dict, key, value, place)
    ensures r.table.tempKey == t.tempKey && r.table.tempValue == t.tempValue && r.table.pluginMode == t.pluginMode
    ensures r.status == Done ==> |r.table.keys| == |t.keys| + 1 && key in r.table.keys
    ensures r.status == Done <==> 0 <= ScanIndex(r.table.dict.order, key) <= |t.keys|
    ensures r.status == Done ==>
              0 <= ScanIndex(r.table.dict.order, key) <= |t.keys| &&
              r.table.keys == InsertAt(t.keys, ScanIndex(r.table.dict.order, key), key)
    ensures r.status == Done || (r.status == Thrown && r.table.keys == t.keys)
  {
    var dict := Put(t.dict, key, value, place);
    var index := ScanIndex(dict.order, key);
    if 0 <= index <= |t.keys| then
      Step(t.(dict := dict, keys := InsertAt(t.keys, index, key)), Done)
    else
      Step(t.(dict := dict), Thrown)
  }

  /** The state change of `removeRow` for an index the cache holds. */
  function DropRow(t: Table, row: int): (r: Table)
    requires 0 <= row < |t.keys|
    ensures r.dict == Remove(t.dict, t.keys[row])
    ensures r.keys == RemoveAt(t.keys, row)
    ensures r.tempKey == t.tempKey && r.tempValue == t.tempValue && r.pluginMode == t.pluginMode
  {
    t.(dict := Remove(t.dict, t.keys[row]), keys := RemoveAt(t.keys, row))
  }

  /** `removeRow`: drop the row's key from the dictionary and the cache;
      an index outside the cache throws before anything changes. */
  function RemoveRow(t: Table, row: int): (r: Step)
    ensures r.status == Done <==> 0 <= row < |t.keys|
    ensures r.status != Done ==> r == Step(t, Thrown)
    ensures r.status == Done ==>
              && r.table.keys == RemoveAt(t.keys, row)
              && r.table.tempKey == t.tempKey && r.table.tempValue == t.tempValue && r.table.pluginMode == t.pluginMode
              && Get(r.table.dict, t.keys[row]) == None
              && forall k :: k != t.keys[row] ==> Get(r.table.dict, k) == Get(t.dict, k)
  {
    if 0 <= row < |t.keys| then Step(DropRow(t, row), Done) else Step(t, Thrown)
  }

  // ---------------------------------------------------------------- write

  /** `setValueAt` on the row it takes for the pending one: column 0 stores
      the text with the sigil prefixed when missing, column 1 stores it
      verbatim, any other column is ignored. Non-string input makes the cast
      throw. */
  function WritePending(t: Table, input: Option<string>, col: int): (r: Step)
    ensures r.table.dict == t.dict && r.table.keys == t.keys && r.table.pluginMode == t.pluginMode
    ensures StartsWithSlash(t.tempKey) ==> StartsWithSlash(r.table.tempKey)
    ensures col == 0 && input.Some? ==>
              r.status == Done && StartsWithSlash(r.table.tempKey) && r.table.tempValue == t.tempValue &&
              (StartsWithSlash(input.value) ==> r.table.tempKey == input.value) &&
              (!StartsWithSlash(input.value) ==> r.table.tempKey == "/" + input.value)
    ensures col == 1 && input.Some? ==>
              r.status == Done && r.table.tempValue == input.value && r.table.tempKey == t.tempKey
    ensures col != 0 && col != 1 ==> r == Step(t, Done)
    ensures input.None? && (col == 0 || col == 1) ==> r == Step(t, Thrown)
  {
    if col == 0 then
      match input
      case Some(s) => Step(t.(tempKey := WithSlash(s)), Done)
      case None => Step(t, Thrown)
    else if col == 1 then
      match input
      case Some(s) => Step(t.(tempValue := s), Done)
      case None => Step(t, Thrown)
    else
      Step(t, Done)
  }

  /** `setValueAt` column 0 on an existing row: rename the row's key. The row
      is removed and the entry re-added under the resolved name with the old
      value, at whatever position the dictionary gives it. */
  function RenameKey(t: Table, env: Env, text: string, row: int): (r: Step)
    ensures r.status.Rejected? || r.status == Unsupported ==> r.table == t
    ensures !(0 <= row < |t.keys|) ==> r == Step(t, Thrown)
    ensures 0 <= row < |t.keys| && GetCorrectKey(env.parser, text).None? ==> r == Step(t, Rejected(KeyIsNotName))
    ensures r.status == Done ==>
              && 0 <= row < |t.keys|
              && GetCorrectKey(env.parser, text).Some?
              && Get(r.table.dict, GetCorrectKey(env.parser, text).value) == Get(t.dict, t.keys[row])
              && (GetCorrectKey(env.parser, text).value != t.keys[row] ==> !ContainsKey(r.table.dict, t.keys[row]))
              && (forall k :: k != t.keys[row] && k != GetCorrectKey(env.parser, text).value ==> Get(r.table.dict, k) == Get(t.dict, k))
    ensures r.table.tempKey == t.tempKey && r.table.tempValue == t.tempValue && r.table.pluginMode == t.pluginMode
  {
    if !(0 <= row < |t.keys|) then Step(t, Thrown)
    else match GetCorrectKey(env.parser, text)
      case None => Step(t, Rejected(KeyIsNotName))
      case Some(newName) =>
        match Get(t.dict, t.keys[row])
        case None => Step(t, Unsupported)
        case Some(v) =>
          AddRow(DropRow(t, row), newName, v, env.place)
  }

  /** How the typed text is prepared for the parser, by the kind of the value
      being replaced: commas are stripped for an array, a string is wrapped in
      the literal-string delimiters `(` and `)` (section 7.3.4.2 of
      ISO 32000-1), anything else is passed on as typed. */
  function PrepareValueText(current: Value, text: string): (r: string)
    ensures current.ArrayObject? ==> ',' !in r && r == RemoveCommas(text)
    ensures current.StringObject? ==> |r| == |text| + 2 && r[0] == '(' && r[|r| - 1] == ')' && r[1..|r| - 1] == text
    ensures !current.ArrayObject? && !current.StringObject? ==> r == text
  {
    match current
    case ArrayObject(_) => RemoveCommas(text)
    case StringObject(_) => "(" + text + ")"
    case _ => text
  }

  /** `setValueAt` column 1 (or any column but 0) on an existing row: parse
      the prepared text with the owner-bound parser and, when it parses,
      replace the row by the same key with the new value. */
  function EditValue(t: Table, env: Env, text: string, row: int): (r: Step)
    ensures r.status.Rejected? ==> r.table == t
    ensures !(0 <= row < |t.keys|) ==> r == Step(t, Thrown)
    ensures 0 <= row < |t.keys| && t.keys[row] !in t.dict.entries ==> r == Step(t, Thrown)
    ensures 0 <= row < |t.keys| && t.keys[row] in t.dict.entries &&
            env.parser.withOwner(PrepareValueText(t.dict.entries[t.keys[row]], text)).None? ==>
              r == Step(t, Rejected(ValueUnparseable))
    ensures r.status == Done ==>
              && 0 <= row < |t.keys|
              && t.keys[row] in t.dict.entries
              && Get(r.table.dict, t.keys[row]) == env.parser.withOwner(PrepareValueText(t.dict.entries[t.keys[row]], text))
              && forall k :: k != t.keys[row] ==> Get(r.table.dict, k) == Get(t.dict, k)
    ensures r.table.tempKey == t.tempKey && r.table.tempValue == t.tempValue && r.table.pluginMode == t.pluginMode
  {
    if !(0 <= row < |t.keys|) then Step(t, Thrown)
    else match Get(t.dict, t.keys[row])
      case None => Step(t, Thrown)
      case Some(current) =>
        match env.parser.withOwner(PrepareValueText(current, text))
        case None => Step(t, Rejected(ValueUnparseable))
        case Some(v) =>
          AddRow(DropRow(t, row), t.keys[row], v, env.place)
  }

  /** `setValueAt`. The row `RowCount - 1` is taken to be the pending row in
      every mode. On any other row the input must be a non-blank string;
      column 0 then renames the key and every other column edits the value. */
  function SetValueAt(t: Table, env: Env, input: Option<string>, row: int, col: int): (r: Step)
    ensures r.status.Rejected? ==> r.table == t
    ensures row == RowCount(t) - 1 ==> r.table.dict == t.dict && r.table.keys == t.keys
    ensures row == RowCount(t) - 1 && col == 0 && input.Some? ==>
              r.status == Done && r.table.tempKey == WithSlash(input.value) && r.table.tempValue == t.tempValue
    ensures row == RowCount(t) - 1 && col == 1 && input.Some? ==>
              r.status == Done && r.table.tempValue == input.value && r.table.tempKey == t.tempKey
    ensures row == RowCount(t) - 1 && col != 0 && col != 1 ==> r == Step(t, Done)
    ensures row == RowCount(t) - 1 && (col == 0 || col == 1) && input.None? ==> r == Step(t, Thrown)
    ensures row != RowCount(t) - 1 ==> r.table.tempKey == t.tempKey && r.table.tempValue == t.tempValue
    ensures row != RowCount(t) - 1 && (input.None? || IsBlank(input.value)) ==> r == Step(t, Rejected(FieldIsEmpty))
    ensures r.table.pluginMode == t.pluginMode
  {
    if row == RowCount(t) - 1 then
      WritePending(t, input, col)
    else
      match input
      case None => Step(t, Rejected(FieldIsEmpty))
      case Some(s) =>
        TrimEmptyIffBlank(s);
        if Trim(s) == "" then Step(t, Rejected(FieldIsEmpty))
        else if col == 0 then RenameKey(t, env, s, row)
        else EditValue(t, env, s, row)
  }

  /** `validateTempRow`: commit the pending row. Both fields must be
      non-blank, the key must resolve to a name, the value must parse and the
      key must be new; only then is the entry added and the scratch fields
      cleared (to the empty string, not to the initial sigil). */
  function ValidateTempRow(t: Table, env: Env): (r: Step)
    ensures r.status != Done ==> r.table.tempKey == t.tempKey && r.table.tempValue == t.tempValue
    ensures r.status.Rejected? ==> r.table == t
    ensures IsBlank(t.tempKey) || IsBlank(t.tempValue) ==> r == Step(t, Rejected(FieldIsEmpty))
    ensures (!IsBlank(t.tempKey) && !IsBlank(t.tempValue) && GetCorrectKey(env.parser, t.tempKey).None?) ==>
              r == Step(t, Rejected(KeyIsNotName))
    ensures (!IsBlank(t.tempKey) && !IsBlank(t.tempValue) && GetCorrectKey(env.parser, t.tempKey).Some? &&
             env.parser.withOwner(t.tempValue).None?) ==>
              r == Step(t, Rejected(ValueUnparseable))
    ensures (!IsBlank(t.tempKey) && !IsBlank(t.tempValue) && GetCorrectKey(env.parser, t.tempKey).Some? &&
             env.parser.withOwner(t.tempValue).Some? && ContainsKey(t.dict, GetCorrectKey(env.parser, t.tempKey).value)) ==>
              r == Step(t, Rejected(KeyAlreadyExists))
    ensures r.status == Done ==>
              && GetCorrectKey(env.parser, t.tempKey).Some?
              && !ContainsKey(t.dict, GetCorrectKey(env.parser, t.tempKey).value)
              && Get(r.table.dict, GetCorrectKey(env.parser, t.tempKey).value) == env.parser.withOwner(t.tempValue)
              && Size(r.table.dict) == Size(t.dict) + 1
              && (forall k :: k != GetCorrectKey(env.parser, t.tempKey).value ==> Get(r.table.dict, k) == Get(t.dict, k))
              && r.table.tempKey == "" && r.table.tempValue == ""
    ensures r.table.pluginMode == t.pluginMode
  {
    TrimEmptyIffBlank(t.tempKey);
    TrimEmptyIffBlank(t.tempValue);
    if Trim(t.tempKey) == "" || Trim(t.tempValue) == "" then Step(t, Rejected(FieldIsEmpty))
    else match GetCorrectKey(env.parser, t.tempKey)
      case None => Step(t, Rejected(KeyIsNotName))
      case Some(key) =>
        match env.parser.withOwner(t.tempValue)
        case None => Step(t, Rejected(ValueUnparseable))
        case Some(value) =>
          if ContainsKey(t.dict, key) then Step(t, Rejected(KeyAlreadyExists))
          else
            var r := AddRow(t, key, value, env.place);
            if r.status == Done then Step(r.table.(tempKey := "", tempValue := ""), Done)
            else r
  }
}

=== FILE: table_properties.dfy ===
/** What `DictionaryTableModel` guarantees about its cache, its rows and its
    edits, stated over the model in `TableModel`. */
module TableProperties {
  import opened Wrappers
  import opened Seqs
  import opened JavaStrings
  import opened PdfObjects
  import opened PdfDict
  import opened TableModel

  // ---------------------------------------------------------------- shape

  /** The shape queries together: outside plugin mode exactly the columns
      before the trailing delete-control column are editable; in plugin mode
      nothing is. On a coherent table the rows are the cached keys plus,
      outside plugin mode, the pending row. This gathers, in one statement,
      what the contracts of `ColumnCount`, `RowCount` and `IsCellEditable`
      give one by one. */
  lemma ShapeQueries(t: Table, row: int)
    ensures forall c :: IsCellEditable(t, row, c) <==> !t.pluginMode && c < ColumnCount(t) - 1
    ensures ColumnCount(t) == 2 <==> t.pluginMode
    ensures Coherent(t) ==> RowCount(t) == |t.keys| + (if t.pluginMode then 0 else 1)
  {
  }

  /** Every column the grid shows has a name and no other column does; the
      two data columns are called "Key" and "Value" and the trailing
      delete-control column has an empty name. */
  lemma ColumnNames(t: Table)
    ensures forall c :: ColumnName(c).Some? <==> 0 <= c < 3
    ensures forall c :: 0 <= c < ColumnCount(t) ==> ColumnName(c).Some?
    ensures ColumnName(0) == Some("Key") && ColumnName(1) == Some("Value")
    ensures !t.pluginMode ==> ColumnName(ColumnCount(t) - 1) == Some("")
  {
  }

  /** Outside plugin mode the grid's last row is the pending row: reading it
      shows the scratch fields, and writing its key column stores the text
      with the sigil. */
  lemma PendingRowIsLastRow(t: Table, env: Env, s: string)
    requires Coherent(t) && !t.pluginMode
    ensures GetValueAt(t, RowCount(t) - 1, 0) == Text(t.tempKey)
    ensures GetValueAt(t, RowCount(t) - 1, 1) == Text(t.tempValue)
    ensures GetValueAt(SetValueAt(t, env, Some(s), RowCount(t) - 1, 0).table, RowCount(t) - 1, 0) == Text(WithSlash(s))
    ensures GetValueAt(SetValueAt(t, env, Some(s), RowCount(t) - 1, 1).table, RowCount(t) - 1, 1) == Text(s)
  {
  }

  /** On a coherent table the grid shows the dictionary exactly: every
      real row reads a key and that key's value (never `null`), and every
      entry of the dictionary is read back at the row the scan finds it. */
  lemma GridShowsDictionary(t: Table)
    requires Coherent(t)
    ensures forall row :: 0 <= row < |t.keys| ==>
              GetValueAt(t, row, 0) == KeyObject(t.keys[row]) &&
              GetValueAt(t, row, 1) == ValueObject(t.dict.entries[t.keys[row]])
    ensures forall k :: k in t.dict.entries ==>
              0 <= ScanIndex(t.keys, k) < |t.keys| &&
              GetValueAt(t, ScanIndex(t.keys, k), 0) == KeyObject(k) &&
              GetValueAt(t, ScanIndex(t.keys, k), 1) == ValueObject(t.dict.entries[k])
  {
  }

  /** In plugin mode there is no pending row: every row index below the
      row count reads a real key. */
  lemma PluginModeRowsAreEntries(t: Table, row: int)
    requires Coherent(t) && t.pluginMode
    requires 0 <= row < RowCount(t)
    ensures GetValueAt(t, row, 0) == KeyObject(t.keys[row])
  {
  }

  /** In plugin mode `setValueAt` still treats row `RowCount - 1` as the
      pending row, which there is the last real entry: a key written to it
      lands in the scratch field and the entry is not renamed. */
  lemma PluginModeLastRowWritesScratch(t: Table, env: Env, s: string)
    requires Coherent(t) && t.pluginMode && |t.keys| > 0
    ensures var r := SetValueAt(t, env, Some(s), |t.keys| - 1, 0);
            && r.table.dict == t.dict && r.table.keys == t.keys
            && r.table.tempKey == WithSlash(s)
            && GetValueAt(r.table, |t.keys| - 1, 0) == KeyObject(t.keys[|t.keys| - 1])
  {
  }

  // ------------------------------------------------------- cache upkeep

  /** `removeRow` on a coherent table keeps the cache equal to the
      dictionary's key order; both shrink by one and the key is gone from both. */
  lemma RemoveRowKeepsCache(t: Table, row: int)
    requires Coherent(t)
    requires 0 <= row < |t.keys|
    ensures var r := RemoveRow(t, row);
            && r.status == Done
            && Coherent(r.table)
            && Size(r.table.dict) == Size(t.dict) - 1
            && t.keys[row] !in r.table.keys
            && !ContainsKey(r.table.dict, t.keys[row])
  {
    ScanIndexOfDistinct(t.dict.order, row);
    RemoveKeepsDistinct(t.keys, row);
  }

  /** `addRow` with a key the dictionary lacks succeeds and inserts the key
      into the cache at the position the dictionary gave it, so the cache
      stays equal to the dictionary's key order. */
  lemma AddRowFreshKeepsCache(t: Table, key: Name, value: Value, place: Placement)
    requires Coherent(t)
    requires !ContainsKey(t.dict, key)
    ensures var r := AddRow(t, key, value, place);
            && r.status == Done
            && Coherent(r.table)
            && r.table.keys == InsertAt(t.keys, InsertionPoint(t.keys, key, place), key)
            && Size(r.table.dict) == Size(t.dict) + 1
  {
    InsertFreshKeepsDistinct(t.dict.order, InsertionPoint(t.dict.order, key, place), key);
  }

  /** `addRow` with a key the dictionary already holds overwrites the entry
      but still inserts the key into the cache a second time: the cache ends
      one longer than the dictionary. */
  lemma AddRowPresentBreaksCache(t: Table, key: Name, value: Value, place: Placement)
    requires Coherent(t)
    requires ContainsKey(t.dict, key)
    ensures var r := AddRow(t, key, value, place);
            && r.status == Done
            && r.table.dict.order == t.keys
            && r.table.keys == InsertAt(t.keys, ScanIndex(t.keys, key), key)
            && |r.table.keys| == Size(r.table.dict) + 1
            && !Coherent(r.table)
            && !Distinct(r.table.keys)
  {
    var i := ScanIndex(t.keys, key);
    var r := AddRow(t, key, value, place);
    assert r.table.dict.order == t.keys;
    assert r.table.keys == InsertAt(t.keys, i, key);
    DuplicateInsertNotDistinct(t.keys, i);
  }

  // ------------------------------------------------------------ editing

  /** A rename on a coherent table (once the text resolves to a name) always
      completes; the new key carries the row's old value, the old key is gone
      when it differs, and the cache stays coherent exactly when the new key
      is the old one or was absent. */
  lemma RenameCoherence(t: Table, env: Env, text: string, row: int)
    requires Coherent(t)
    requires 0 <= row < |t.keys|
    requires GetCorrectKey(env.parser, text).Some?
    ensures var r := RenameKey(t, env, text, row);
            var oldName := t.keys[row];
            var newName := GetCorrectKey(env.parser, text).value;
            && r.status == Done
            && Get(r.table.dict, newName) == Some(t.dict.entries[oldName])
            && (newName != oldName ==> !ContainsKey(r.table.dict, oldName))
            && (forall k :: k != oldName && k != newName ==> Get(r.table.dict, k) == Get(t.dict, k))
            && (Coherent(r.table) <==> newName == oldName || !ContainsKey(t.dict, newName))
            && (Coherent(r.table) ==> Size(r.table.dict) == Size(t.dict))
            && (!Coherent(r.table) ==> |r.table.keys| == Size(r.table.dict) + 1)
  {
    var oldName := t.keys[row];
    var newName := GetCorrectKey(env.parser, text).value;
    var dropped := DropRow(t, row);
    RemoveRowKeepsCache(t, row);
    assert Coherent(dropped);
    if newName == oldName || !ContainsKey(t.dict, newName) {
      assert !ContainsKey(dropped.dict, newName);
      AddRowFreshKeepsCache(dropped, newName, t.dict.entries[oldName], env.place);
    } else {
      assert ContainsKey(dropped.dict, newName);
      AddRowPresentBreaksCache(dropped, newName, t.dict.entries[oldName], env.place);
    }
  }

  /** A value edit on a coherent table keeps the cache coherent, the key set
      and the row count; the key now maps to the parsed value. */
  lemma EditValueKeepsKeys(t: Table, env: Env, text: string, row: int)
    requires Coherent(t)
    requires 0 <= row < |t.keys|
    ensures var r := EditValue(t, env, text, row);
            && (r.status == Done || r.status == Rejected(ValueUnparseable))
            && Coherent(r.table)
            && r.table.dict.entries.Keys == t.dict.entries.Keys
            && RowCount(r.table) == RowCount(t)
            && (r.status == Done <==>
                  env.parser.withOwner(PrepareValueText(t.dict.entries[t.keys[row]], text)).Some?)
  {
    var key := t.keys[row];
    var dropped := DropRow(t, row);
    RemoveRowKeepsCache(t, row);
    assert !ContainsKey(dropped.dict, key);
    var parsed := env.parser.withOwner(PrepareValueText(t.dict.entries[key], text));
    if parsed.Some? {
      var r := EditValue(t, env, text, row);
      assert r == AddRow(dropped, key, parsed.value, env.place);
      AddRowFreshKeepsCache(dropped, key, parsed.value, env.place);
      SameKeysFromGet(t.dict, r.table.dict, key);
    }
  }

  /** Two dictionaries that agree on which keys are present away from `key`,
      and both hold `key`, have the same key set. */
  lemma SameKeysFromGet(a: Dict, b: Dict, key: Name)
    requires key in a.entries && key in b.entries
    requires forall k :: k != key ==> Get(b, k) == Get(a, k)
    ensures b.entries.Keys == a.entries.Keys
  {
    forall k | k in a.entries || k in b.entries
      ensures k in a.entries <==> k in b.entries
    {
      if k != key {
        assert Get(b, k) == Get(a, k);
      }
    }
  }

  /** The edit that makes `setValueAt` break the cache: a rename on an
      existing row onto a different key the dictionary already holds. */
  predicate ClobbersKey(t: Table, env: Env, input: Option<string>, row: int, col: int) {
    && row != RowCount(t) - 1
    && input.Some? && !IsBlank(input.value)
    && col == 0
    && 0 <= row < |t.keys|
    && GetCorrectKey(env.parser, input.value).Some?
    && GetCorrectKey(env.parser, input.value).value != t.keys[row]
    && ContainsKey(t.dict, GetCorrectKey(env.parser, input.value).value)
  }

  /** `setValueAt` on a coherent table keeps the cache coherent exactly when
      the edit is not a rename onto another existing key. */
  lemma SetValueAtCoherence(t: Table, env: Env, input: Option<string>, row: int, col: int)
    requires Coherent(t)
    ensures Coherent(SetValueAt(t, env, input, row, col).table) <==> !ClobbersKey(t, env, input, row, col)
  {
    var r := SetValueAt(t, env, input, row, col);
    if row == RowCount(t) - 1 {
      assert r.table.keys == t.keys && r.table.dict == t.dict;
    } else if input.None? || IsBlank(input.value) {
      assert r.table == t;
    } else {
      var s := input.value;
      ExistingRowEditDispatch(t, env, s, row, col);
      if !(0 <= row < |t.keys|) {
        assert r.table == t;
      } else if col == 0 {
        if GetCorrectKey(env.parser, s).Some? {
          RenameCoherence(t, env, s, row);
        } else {
          assert r.table == t;
        }
      } else {
        EditValueKeepsKeys(t, env, s, row);
      }
    }
  }

  /** Key resolution is insensitive to a sigil the user already typed: text
      with and without its leading `/` resolve alike. */
  lemma GetCorrectKeyIgnoresSigil(parser: Parser, text: string)
    ensures !StartsWithSlash(text) ==> GetCorrectKey(parser, "/" + text) == GetCorrectKey(parser, text)
    ensures GetCorrectKey(parser, WithSlash(text)) == GetCorrectKey(parser, text)
  {
    WithSlashIdempotent(text);
    assert StartsWithSlash("/" + text);
  }

  /** A non-blank edit of a row other than the one taken for the pending row
      renames the key in column 0 and edits the value in every other column. */
  lemma ExistingRowEditDispatch(t: Table, env: Env, s: string, row: int, col: int)
    requires row != RowCount(t) - 1
    requires !IsBlank(s)
    ensures SetValueAt(t, env, Some(s), row, col) ==
              if col == 0 then RenameKey(t, env, s, row) else EditValue(t, env, s, row)
  {
    TrimEmptyIffBlank(s);
  }

  /** A rejected edit changes nothing, on any row, and blank input on an
      existing row is always rejected. */
  lemma RejectedEditChangesNothing(t: Table, env: Env, input: Option<string>, row: int, col: int)
    requires row != RowCount(t) - 1
    requires input.None? || IsBlank(input.value)
    ensures SetValueAt(t, env, input, row, col) == Step(t, Rejected(FieldIsEmpty))
  {
  }

  /** Editing a string value wraps the typed text in literal-string
      delimiters before parsing; editing an array value strips its commas. */
  lemma EditValuePreparesText(t: Table, env: Env, text: string, row: int)
    requires Coherent(t)
    requires 0 <= row < |t.keys|
    ensures var current := t.dict.entries[t.keys[row]];
            var r := EditValue(t, env, text, row);
            && (current.StringObject? && r.status == Done ==>
                  Get(r.table.dict, t.keys[row]) == env.parser.withOwner("(" + text + ")"))
            && (current.ArrayObject? && r.status == Done ==>
                  Get(r.table.dict, t.keys[row]) == env.parser.withOwner(RemoveCommas(text)))
  {
  }

  // ------------------------------------------------------------- commit

  /** On a coherent table `validateTempRow` never throws and keeps the cache
      coherent; it commits exactly when both fields are non-blank, the key
      resolves to a name the dictionary lacks and the value parses. */
  lemma ValidateTempRowCoherence(t: Table, env: Env)
    requires Coherent(t)
    ensures var r := ValidateTempRow(t, env);
            var key := GetCorrectKey(env.parser, t.tempKey);
            && (r.status == Done || r.status.Rejected?)
            && Coherent(r.table)
            && (r.status == Done <==>
                  && !IsBlank(t.tempKey) && !IsBlank(t.tempValue)
                  && key.Some? && !ContainsKey(t.dict, key.value)
                  && env.parser.withOwner(t.tempValue).Some?)
            && (r.status == Rejected(KeyAlreadyExists) <==>
                  && !IsBlank(t.tempKey) && !IsBlank(t.tempValue)
                  && key.Some? && ContainsKey(t.dict, key.value)
                  && env.parser.withOwner(t.tempValue).Some?)
  {
    TrimEmptyIffBlank(t.tempKey);
    TrimEmptyIffBlank(t.tempValue);
    var key := GetCorrectKey(env.parser, t.tempKey);
    var parsed := env.parser.withOwner(t.tempValue);
    if !IsBlank(t.tempKey) && !IsBlank(t.tempValue) && key.Some? && parsed.Some? && !ContainsKey(t.dict, key.value) {
      AddRowFreshKeepsCache(t, key.value, parsed.value, env.place);
    }
  }

  /** After a commit the pending row reads the empty string, whereas a
      freshly constructed table shows the bare sigil there. */
  lemma CommitLeavesEmptyPendingKey(t: Table, env: Env)
    ensures var r := ValidateTempRow(t, env);
            r.status == Done ==>
              && GetValueAt(r.table, |r.table.keys|, 0) == Text("")
              && GetValueAt(New(r.table.dict, r.table.pluginMode), |r.table.dict.order|, 0) == Text("/")
  {
  }

  // ---------------------------------------------------------- scenarios

  /** The dictionary `<< /Type /Page >>` shown outside plugin mode: two rows,
      three columns, and the pending row shows the bare sigil; typing `Foo`
      into its key cell stores `/Foo`. */
  lemma SinglePageDictionary(env: Env)
    ensures var d := PdfDictionary(["Type"], map["Type" := NameObject("Page")]);
            WellFormed(d) &&
            var t := New(d, false);
            && RowCount(t) == 2 && ColumnCount(t) == 3
            && GetValueAt(t, 1, 0) == Text("/")
            && SetValueAt(t, env, Some("Foo"), 1, 0).table.tempKey == "/Foo"
  {
    var d := PdfDictionary(["Type"], map["Type" := NameObject("Page")]);
    assert WellFormed(d);
    var t := New(d, false);
    assert Size(t.dict) == 1;
    assert !StartsWithSlash("Foo");
  }
}

=== FILE: wrappers.dfy ===
/** The optional-value wrapper used for Java's nullable returns. */
module Wrappers {

  /** `None` stands for a Java `null` (or an absent entry), `Some(v)` for a present value. */
  datatype Option<+T> = None | Some(value: T)
}
